=== FILE: README.md ===
# Table sort, modelled in Dafny

This project models the table-sort utility `docs/JS/Examples/src/table_sort.js`. It has three parts:

- **`sortTableByColumn(table, column, asc = true)`** reorders the rows of the table's first body section. Each row's key is the trimmed text of its cell at zero-based `column`. Keys are compared with JavaScript's `>` on strings, and the result is multiplied by a direction modifier of +1 or -1. The function then clears every header's `th-sort-asc` and `th-sort-desc` classes and sets the one for `asc` on header `column`.
- **The header click handler** finds the clicked header's position among its siblings. It sorts by that column in the direction `!(header has th-sort-asc)`.
- **The string semantics both parts rely on.** `String.prototype.trim` removes ECMAScript white space and line terminators. The relational comparison of two strings (IsLessThan, section 7.2.13 of ECMA-262, 13th edition) is lexicographic by UTF-16 code unit.

The DOM becomes values:
- A table is its header cells plus its body rows.
- A header cell is an element identity plus its two class flags.
- A row is the `textContent` of each of its cells.

A JavaScript exception becomes a `Thrown` completion. It carries the table as the throw leaves it. A call that returns normally gives `Normal`.

The engine's `Array.prototype.sort` is left abstract. `Rows.IsSortOf` says what any sort must produce:
- the same rows, each as often as before;
- every row has the cell;
- the keys are in order for the direction.

`RowSort.SortRows`, an insertion sort, is one such result. `TableSort.SortTableByColumn` uses it. Every property about keys is proved against `IsSortOf`, so none of them depends on how rows with equal keys are ordered.

Modules:

| file | module | contents |
|---|---|---|
| `js_strings.dfy` | `JsStrings` | code units, white space, `Trim`, `Less` and the ECMA-262 reference `IsLessThan` |
| `key_order.dfy` | `KeyOrder` | direction modifier, the comparator as written and corrected, sortedness of key sequences |
| `wrappers.dfy` | `Wrappers` | `Option`, for a lookup that may find nothing |
| `rows.dfy` | `Rows` | rows, `:nth-child` lookup, keys, `IsSortOf` and what follows from it |
| `row_sort.dfy` | `RowSort` | the insertion sort standing in for the engine's sort |
| `table_sort.dfy` | `TableSort` | header cells, `SortTableByColumn`, `IndexOf`, the click handler, runs of clicks |
| `scenarios.dfy` | `Scenarios` | a three-row table sorted both ways, a run of clicks, both ways a sort throws |

### When a sort throws

A missing cell makes the comparator's key lookup throw (lines 14-15). The comparator runs inside `rows.sort`, before line 23 empties the body. So a `MissingCell` throw leaves the table exactly as it was.

A column past the last header is a different case. There the body has already been replaced and the indicators cleared before line 32 throws. The model keeps those changes.

With fewer than two rows the engine never calls the comparator. A missing cell then does not throw at all.

## Model

| member | source | states |
|---|---|---|
| TableSort.SortTableByColumn | docs/JS/Examples/src/table_sort.js:7-34 | Header elements keep their places. The body stays the same multiset of rows. It throws MissingCell exactly when there are two or more rows and one lacks the cell, and then the table is unchanged. It throws MissingHeader exactly when the lookup succeeds but no header exists at `column`, and then every indicator is cleared. Otherwise the body is a key-sorted permutation (unchanged under two rows). On normal completion only header `column` is marked, with `th-sort-asc` iff `asc` and `th-sort-desc` iff not |
| TableSort.Click | docs/JS/Examples/src/table_sort.js:38-47 | The sorted column is the clicked header's position. The click throws exactly when that column's key lookup fails, leaving the table unchanged. Otherwise the clicked header moves Unmarked→Ascending, Ascending→Descending, Descending→Ascending: it carries exactly one of `th-sort-asc` and `th-sort-desc`, the one for the new direction `!sortAsc`. Every other header is left unmarked, and the body is sorted in the new direction |
| TableSort.IndexOf | docs/JS/Examples/src/table_sort.js:42 | Returns -1 iff no header has the element. Otherwise it returns a position holding the element with no earlier position holding it |
| TableSort.RunClicks | docs/JS/Examples/src/table_sort.js:38-47 | Over any run of clicks, each listener running on the table the previous one left, thrown or not, the header elements stay put, the rows stay the same multiset, and "at most one header carries an indicator, never both" is preserved, because lines 31-33 clear every indicator before setting one |
| RowSort.SortRows | docs/JS/Examples/src/table_sort.js:13-19 | When every row has the cell, the result is a permutation of the rows whose keys are non-decreasing (ascending) or non-increasing (descending) |
| RowSort.Insert | docs/JS/Examples/src/table_sort.js:13-19 | Inserting a row into key-sorted rows gives key-sorted rows holding the old rows plus the new one |
| Rows.CellKey | docs/JS/Examples/src/table_sort.js:14-15 | `td:nth-child(column + 1)` finds a cell iff the row has more than `column` cells. The key is that cell's text, trimmed |
| Rows.KeysOfPermutation | docs/JS/Examples/src/table_sort.js:10-28 | Reordering the rows, without creating or losing any, gives the same multiset of keys, and every row keeps its cell |
| Rows.SortKeysUnique | docs/JS/Examples/src/table_sort.js:13-19 | Any two sorts of the same rows in the same direction give the same key sequence, whatever order they leave rows with equal keys in |
| Rows.SortKeysAreSortedArrangement | docs/JS/Examples/src/table_sort.js:13-19 | A key sequence is sorted and a rearrangement of the original keys iff it is the key sequence of the sort |
| Rows.SortKeysIdempotent | docs/JS/Examples/src/table_sort.js:13-19 | Sorting sorted rows again in the same direction gives the same key sequence |
| Rows.SortKeysReversed | docs/JS/Examples/src/table_sort.js:8-19 | The descending sort's key sequence is the ascending sort's reversed |
| KeyOrder.DirModifier | docs/JS/Examples/src/table_sort.js:8 | The modifier is +1 or -1, and positive iff ascending |
| KeyOrder.Compare | docs/JS/Examples/src/table_sort.js:18 | The comparator as written never returns 0 |
| KeyOrder.CompareTieBias | docs/JS/Examples/src/table_sort.js:18 | The comparator as written compares a key with itself as -dirModifier, never 0 |
| KeyOrder.CompareOrdersByDirection | docs/JS/Examples/src/table_sort.js:8-18 | On different keys it agrees with the corrected comparator. It is negative iff the first key may come first in the direction (`a <= b` ascending, `a >= b` descending) |
| KeyOrder.CompareSortsByDirection | docs/JS/Examples/src/table_sort.js:8-18 | Whatever the as-written comparator answers, it never contradicts the order: at most 0 means the first key may come first, above 0 means the second may |
| KeyOrder.ConsistentCompare | docs/JS/Examples/src/table_sort.js:18 | The corrected comparator returns 0 exactly on equal keys |
| KeyOrder.ConsistentCompareIsConsistent | docs/JS/Examples/src/table_sort.js:18 | The corrected comparator is reflexive, antisymmetric in sign and transitive, which makes it a consistent comparison function for Array.prototype.sort |
| KeyOrder.ConsistentCompareMatchesBefore | docs/JS/Examples/src/table_sort.js:18 | The corrected comparator is at most 0 iff the first key may come first in the direction |
| KeyOrder.SortedUnique | docs/JS/Examples/src/table_sort.js:13-19 | Two sorted key sequences with the same keys are equal |
| KeyOrder.ReverseSorted | docs/JS/Examples/src/table_sort.js:8-18 | Reversed, an ascending key sequence is descending, and the other way round |
| KeyOrder.BeforeTransitive | docs/JS/Examples/src/table_sort.js:18 | "May come before" in either direction is transitive |
| KeyOrder.BeforeAntisymmetric | docs/JS/Examples/src/table_sort.js:18 | Keys that may each come before the other are equal |
| JsStrings.LessIsIsLessThan | docs/JS/Examples/src/table_sort.js:18 | `Less` agrees on all strings with the step-by-step IsLessThan of ECMA-262, which decides by prefix and then by first differing code unit |
| JsStrings.LessTransitive | docs/JS/Examples/src/table_sort.js:18 | String `<` is transitive |
| JsStrings.LessTotal | docs/JS/Examples/src/table_sort.js:18 | Of two different strings, one is `<` the other |
| JsStrings.LessAsymmetric | docs/JS/Examples/src/table_sort.js:18 | No two strings are each `<` the other |
| JsStrings.LessIrreflexive | docs/JS/Examples/src/table_sort.js:18 | No string is `<` itself |
| JsStrings.LeadingSpace | docs/JS/Examples/src/table_sort.js:14-15 | Counts the white space at the front: all of it is white space, and the next code unit is not |
| JsStrings.TrailingSpace | docs/JS/Examples/src/table_sort.js:14-15 | Counts the white space at the back: all of it is white space, and the code unit before it is not |
| JsStrings.TrimIsTrimOf | docs/JS/Examples/src/table_sort.js:14-15 | `trim` leaves a text with no white space at either end, which sits inside the input with only white space around it |
| JsStrings.TrimUnique | docs/JS/Examples/src/table_sort.js:14-15 | Any text with those two properties is the trim of the input |
| JsStrings.TrimIgnoresPadding | docs/JS/Examples/src/table_sort.js:14-15 | White space added around a cell's text does not change its key |
| JsStrings.TrimOfTrimmed | docs/JS/Examples/src/table_sort.js:14-15 | A text without white space at either end is its own trim |
| Scenarios.SortPeopleAscending | docs/JS/Examples/src/table_sort.js:7-34 | Sorting rows named Charlie, Alice, Bob on column 1 with the default direction gives keys Alice, Bob, Charlie and marks header 1 ascending |
| Scenarios.SortPeopleDescending | docs/JS/Examples/src/table_sort.js:7-34 | Sorting the same rows descending gives Charlie, Bob, Alice and marks header 1 descending |
| Scenarios.ClickSequence | docs/JS/Examples/src/table_sort.js:38-47 | Clicking a header twice sorts ascending, then descending. Clicking another header then marks it ascending and unmarks the first |
| Scenarios.SortPastLastColumn | docs/JS/Examples/src/table_sort.js:14 | A column past every row's cells throws MissingCell and leaves the table as it was |
| Scenarios.SortPastLastHeader | docs/JS/Examples/src/table_sort.js:31-32 | A single row, sorted by a column with a cell but no header, throws MissingHeader after the indicators were cleared |
| Scenarios.CodeUnitOrder | docs/JS/Examples/src/table_sort.js:14-18 | Keys compare by code unit, so a surrogate pair sorts before U+FF61. Ideographic space and line feeds are trimmed |

## Left out

- DOM plumbing is left out: `tBodies[0]`, `querySelectorAll("tr")`, the `removeChild`/`append` loop and the `parentElement` walk to the table (lines 9-10, 23-28, 40). The body is replaced as one sequence, and the click handler is given the table directly. A table always has a body section in the model, so the TypeError that line 10 throws when `table.tBodies[0]` is undefined, before anything changes, is not modelled.
- Registering the click listeners at load time (lines 38-39) is left out. `TableSort.Click` is the body of one listener, and `TableSort.RunClicks` models a run of them.
- The engine's sort algorithm is left out. Since the 10th edition, ECMA-262 requires `Array.prototype.sort` to be stable, so with a consistent comparison function the result is fully defined: the rows sorted by key, with rows of equal keys in their document order. The as-written comparator compares every row below or above itself (line 18), so it is not consistent on any non-empty input. ECMA-262 then leaves the sort order implementation-defined, and an engine may reorder rows, ties included. The model assumes that the engine still leaves the keys in order. `KeyOrder.CompareSortsByDirection` shows that none of the comparator's answers contradicts that order. The model sorts with the corrected comparator, and every key property is stated for any result `IsSortOf` allows.
- Stability is not modelled. `Rows.IsSortOf` does not require rows with equal keys to keep their document order, and no lemma states it of `RowSort.SortRows`. The as-written comparator gives no such promise, so the key properties are stated for every tie order.
- The model does not cover `<th>` cells inside body rows, `<td>` cells nested in other elements, or header rows with non-`<th>` children. A row is taken to be its `<td>` cells in order, and the header row to be its `<th>` cells.
- The `console.log` lines left in comments (lines 16-17, 21) have no effect and are not modelled.
- `JS/main.js` is not part of this model. It holds tutorial snippets that print to the console and depend on host-language coercion.
- `publish.py` is not part of this model. It is I/O and a call into an external publishing library.

## Findings

| source | as written | input that shows it | evidently intended | confidence | as-written member | corrected member |
|---|---|---|---|---|---|---|
| docs/JS/Examples/src/table_sort.js:18 | The comparator returns `-dirModifier` whenever `a > b` is false, including for equal keys. So a key compares below itself ascending and above itself descending, and two rows with equal keys each compare before the other. That breaks the consistent-comparator requirement of Array.prototype.sort, so the resulting order, ties included, is implementation-defined | two rows whose cells at `column` both read `x`: `compare(x, x)` is -1 ascending, 1 descending | return 0 for equal keys. The comparator is then consistent, and the required stable sort gives a fully defined result: rows in key order, rows with equal keys in document order | medium, not executed | KeyOrder.CompareTieBias | KeyOrder.ConsistentCompareIsConsistent |

=== FILE: js_strings.dfy ===
/** ECMAScript string values as the table sorter sees them: the text of a
    cell, trimmed with String.prototype.trim and compared with `>`.

    An ECMAScript string is a sequence of UTF-16 code units, and both the
    trimming and the relational comparison work on code units, so that is
    what this module models (not Unicode scalar values). */
module JsStrings {

  /** A UTF-16 code unit. */
  newtype CodeUnit = x: int | 0 <= x < 0x1_0000

  /** An ECMAScript string value, such as the `textContent` of a cell. */
  type JsString = seq<CodeUnit>

  /** The union of WhiteSpace and LineTerminator (sections 12.2 and 12.3 of
      ECMA-262, 13th edition), which String.prototype.trim removes. Every
      such code point lies in the Basic Multilingual Plane, so testing a
      single code unit is exact. */
  predicate IsWhiteSpace(c: CodeUnit) {
    // <TAB> <VT> <FF> <ZWNBSP>
    || c == 0x0009 || c == 0x000B || c == 0x000C || c == 0xFEFF
    // <USP>: the code points of general category Zs
    || c == 0x0020 || c == 0x00A0 || c == 0x1680 || (0x2000 <= c <= 0x200A)
    || c == 0x202F || c == 0x205F || c == 0x3000
    // LineTerminator: <LF> <CR> <LS> <PS>
    || c == 0x000A || c == 0x000D || c == 0x2028 || c == 0x2029
  }

  /** Every code unit of `s` from `lo` up to `hi` is white space. */
  predicate WhiteSpaceBetween(s: JsString, lo: nat, hi: nat)
    requires lo <= hi <= |s|
  {
    forall k :: lo <= k < hi ==> IsWhiteSpace(s[k])
  }

  predicate AllWhiteSpace(s: JsString) {
    WhiteSpaceBetween(s, 0, |s|)
  }

  /** The length of the longest all-white-space prefix of `s`. */
  function LeadingSpace(s: JsString): (n: nat)
    ensures n <= |s|
    ensures WhiteSpaceBetween(s, 0, n)
    ensures n < |s| ==> !IsWhiteSpace(s[n])
  {
    if |s| == 0 || !IsWhiteSpace(s[0]) then 0
    else 1 + LeadingSpace(s[1..])
  }

  /** The length of the longest all-white-space suffix of `s`. */
  function TrailingSpace(s: JsString): (n: nat)
    ensures n <= |s|
    ensures WhiteSpaceBetween(s, |s| - n, |s|)
    ensures n < |s| ==> !IsWhiteSpace(s[|s| - n - 1])
  {
    if |s| == 0 || !IsWhiteSpace(s[|s| - 1]) then 0
    else 1 + TrailingSpace(s[..|s| - 1])
  }

  /** `r` is what trimming `s` leaves: `s` is `r` with white space added on
      either side, and `r` neither starts nor ends with white space. */
  ghost predicate IsTrimOf(r: JsString, s: JsString) {
    && (|r| > 0 ==> !IsWhiteSpace(r[0]) && !IsWhiteSpace(r[|r| - 1]))
    && exists i: nat :: i + |r| <= |s| && Padding(s, i, r)
  }

  /** `s` is `r` at offset `i`, with only white space before and after. */
  ghost predicate Padding(s: JsString, i: nat, r: JsString)
    requires i + |r| <= |s|
  {
    s[i..i + |r|] == r && WhiteSpaceBetween(s, 0, i) && WhiteSpaceBetween(s, i + |r|, |s|)
  }

  /** String.prototype.trim. */
  function Trim(s: JsString): JsString {
    var i := LeadingSpace(s);
    var e := |s| - TrailingSpace(s);
    if e <= i then [] else s[i..e]
  }

  /** Trim removes white space from both ends and nothing else. */
  lemma TrimIsTrimOf(s: JsString)
    ensures IsTrimOf(Trim(s), s)
  {
    var i := LeadingSpace(s);
    var e := |s| - TrailingSpace(s);
    if e <= i {
      assert Padding(s, |s|, []);
    } else {
      assert Padding(s, i, s[i..e]);
    }
  }

  /** Where a text without white space at its ends sits inside its padding. */
  lemma PaddingBounds(s: JsString, i: nat, r: JsString)
    requires i + |r| <= |s| && Padding(s, i, r)
    requires |r| > 0 && !IsWhiteSpace(r[0]) && !IsWhiteSpace(r[|r| - 1])
    ensures i == LeadingSpace(s)
    ensures i + |r| == |s| - TrailingSpace(s)
  {
    assert s[i] == r[0];
    assert s[i + |r| - 1] == r[|r| - 1];
  }

  /** There is exactly one way to trim a string: `IsTrimOf` pins the
      result down. */
  lemma TrimUnique(r: JsString, s: JsString)
    requires IsTrimOf(r, s)
    ensures r == Trim(s)
  {
    var i: nat :| i + |r| <= |s| && Padding(s, i, r);
    TrimIsTrimOf(s);
    if |r| > 0 {
      PaddingBounds(s, i, r);
    }
  }

  /** White space added in front keeps a text padded. */
  lemma PaddingFront(w: JsString, s: JsString, i: nat, r: JsString)
    requires AllWhiteSpace(w) && i + |r| <= |s| && Padding(s, i, r)
    ensures Padding(w + s, |w| + i, r)
  {
    var p := w + s;
    assert p[|w| + i..|w| + i + |r|] == s[i..i + |r|];
    forall k | 0 <= k < |w| + i
      ensures IsWhiteSpace(p[k])
    {
      if k >= |w| { assert p[k] == s[k - |w|]; }
    }
    forall k | |w| + i + |r| <= k < |p|
      ensures IsWhiteSpace(p[k])
    {
      assert p[k] == s[k - |w|];
    }
  }

  /** White space added behind keeps a text padded. */
  lemma PaddingBack(s: JsString, w: JsString, i: nat, r: JsString)
    requires AllWhiteSpace(w) && i + |r| <= |s| && Padding(s, i, r)
    ensures Padding(s + w, i, r)
  {
    var p := s + w;
    assert p[i..i + |r|] == s[i..i + |r|];
    forall k | 0 <= k < i
      ensures IsWhiteSpace(p[k])
    {
      assert p[k] == s[k];
    }
    forall k | i + |r| <= k < |p|
      ensures IsWhiteSpace(p[k])
    {
      if k < |s| { assert p[k] == s[k]; } else { assert p[k] == w[k - |s|]; }
    }
  }

  /** Trimming ignores any white space around the text. */
  lemma TrimIgnoresPadding(before: JsString, s: JsString, after: JsString)
    requires AllWhiteSpace(before) && AllWhiteSpace(after)
    ensures Trim(before + s + after) == Trim(s)
  {
    var r := Trim(s);
    TrimIsTrimOf(s);
    var i: nat :| i + |r| <= |s| && Padding(s, i, r);
    PaddingFront(before, s, i, r);
    PaddingBack(before + s, after, |before| + i, r);
    TrimUnique(r, before + s + after);
  }

  /** Text with no white space at either end is its own trim. */
  lemma TrimOfTrimmed(s: JsString)
    requires |s| > 0 ==> !IsWhiteSpace(s[0]) && !IsWhiteSpace(s[|s| - 1])
    ensures Trim(s) == s
  {
    assert Padding(s, 0, s);
    TrimUnique(s, s);
  }

  /** IsLessThan(x, y) of section 7.2.13 of ECMA-262 (13th edition) when
      both operands are strings: a proper prefix is smaller, otherwise the
      first differing code unit decides. `a > b` in the source is
      `Less(b, a)`. */
  predicate Less(a: JsString, b: JsString)
    decreases |a|
  {
    if |b| == 0 then false
    else if |a| == 0 then true
    else if a[0] != b[0] then a[0] < b[0]
    else Less(a[1..], b[1..])
  }

  /** IsStringPrefix(p, q) of ECMA-262. */
  predicate IsStringPrefix(p: JsString, q: JsString) {
    |p| <= |q| && q[..|p|] == p
  }

  /** `k` is the smallest index at which `px` and `py` differ. */
  predicate FirstDifference(px: JsString, py: JsString, k: nat) {
    k < |px| && k < |py| && px[..k] == py[..k] && px[k] != py[k]
  }

  /** The string case of IsLessThan, step by step as ECMA-262 writes it:
      the reference that `Less` is checked against. */
  ghost predicate IsLessThan(px: JsString, py: JsString) {
    if IsStringPrefix(py, px) then false
    else if IsStringPrefix(px, py) then true
    else exists k: nat :: FirstDifference(px, py, k) && px[k] < py[k]
  }

  /** Before their first difference, two strings agree. */
  lemma FirstDifferenceAgrees(px: JsString, py: JsString, k: nat)
    requires FirstDifference(px, py, k)
    ensures forall m :: 0 <= m < k ==> px[m] == py[m]
  {
    forall m | 0 <= m < k
      ensures px[m] == py[m]
    {
      assert px[..k][m] == px[m] && py[..k][m] == py[m];
    }
  }

  /** Dropping an equal first code unit moves the first difference down by one. */
  lemma FirstDifferenceTail(a: JsString, b: JsString, k: nat)
    requires |a| > 0 && |b| > 0 && a[0] == b[0]
    ensures FirstDifference(a, b, k + 1) <==> FirstDifference(a[1..], b[1..], k)
  {
    if k < |a| - 1 && k < |b| - 1 {
      assert a[..k + 1] == [a[0]] + a[1..][..k];
      assert b[..k + 1] == [b[0]] + b[1..][..k];
    }
  }

  /** Dropping an equal first code unit keeps the prefix relation. */
  lemma PrefixTail(p: JsString, q: JsString)
    requires |p| > 0 && |q| > 0 && p[0] == q[0]
    ensures IsStringPrefix(p, q) <==> IsStringPrefix(p[1..], q[1..])
  {
    if |p| <= |q| {
      assert q[..|p|] == [q[0]] + q[1..][..|p| - 1];
      assert p == [p[0]] + p[1..];
    }
  }

  lemma {:induction false} LessIsIsLessThan(a: JsString, b: JsString)
    ensures Less(a, b) <==> IsLessThan(a, b)
    decreases |a|
  {
    if |b| == 0 {
      assert IsStringPrefix(b, a);
    } else if |a| == 0 {
      assert IsStringPrefix(a, b);
    } else if a[0] != b[0] {
      assert !IsStringPrefix(b, a) && !IsStringPrefix(a, b);
      assert FirstDifference(a, b, 0);
      if exists k: nat :: FirstDifference(a, b, k) && a[k] < b[k] {
        var k: nat :| FirstDifference(a, b, k) && a[k] < b[k];
        FirstDifferenceAgrees(a, b, k);
      }
    } else {
      var a', b' := a[1..], b[1..];
      LessIsIsLessThan(a', b');
      PrefixTail(a, b);
      PrefixTail(b, a);
      if exists k: nat :: FirstDifference(a, b, k) && a[k] < b[k] {
        var k: nat :| FirstDifference(a, b, k) && a[k] < b[k];
        FirstDifferenceAgrees(a, b, k);
        FirstDifferenceTail(a, b, k - 1);
        assert a'[k - 1] < b'[k - 1];
      }
      if exists k: nat :: FirstDifference(a', b', k) && a'[k] < b'[k] {
        var k: nat :| FirstDifference(a', b', k) && a'[k] < b'[k];
        FirstDifferenceTail(a, b, k);
        assert a[k + 1] < b[k + 1];
      }
    }
  }

  lemma {:induction false} LessIrreflexive(a: JsString)
    ensures !Less(a, a)
    decreases |a|
  {
    if |a| > 0 { LessIrreflexive(a[1..]); }
  }

  lemma {:induction false} LessAsymmetric(a: JsString, b: JsString)
    ensures Less(a, b) ==> !Less(b, a)
    decreases |a|
  {
    if |a| > 0 && |b| > 0 && a[0] == b[0] { LessAsymmetric(a[1..], b[1..]); }
  }

  lemma {:induction false} LessTransitive(a: JsString, b: JsString, c: JsString)
    requires Less(a, b) && Less(b, c)
    ensures Less(a, c)
    decreases |a|
  {
    if |a| > 0 && a[0] == b[0] && b[0] == c[0] {
      LessTransitive(a[1..], b[1..], c[1..]);
    }
  }

  /** Two different strings are always ordered one way or the other. */
  lemma {:induction false} LessTotal(a: JsString, b: JsString)
    ensures a == b || Less(a, b) || Less(b, a)
    decreases |a|
  {
    if |a| > 0 && |b| > 0 && a[0] == b[0] {
      LessTotal(a[1..], b[1..]);
      assert a == [a[0]] + a[1..] && b == [b[0]] + b[1..];
    }
  }
}

=== FILE: key_order.dfy ===
/** The order the table sorter puts keys in: the comparator built from the
    sort direction, and what it means for a key sequence to be sorted. */
module KeyOrder {
  import opened JsStrings

  /** `dirModifier`: +1 when sorting ascending, -1 when descending. */
  function DirModifier(asc: bool): (d: int)
    ensures d == 1 || d == -1
    ensures d > 0 <==> asc
  {
    if asc then 1 else -1
  }

  /** Key `a` may come before key `b` in the given direction: ascending
      means `a <= b` and descending `a >= b`, as JavaScript compares strings. */
  predicate Before(a: JsString, b: JsString, asc: bool) {
    if asc then !Less(b, a) else !Less(a, b)
  }

  /** The comparator exactly as the source writes it: the direction
      modifier when `a > b`, its negation otherwise, so equal keys compare
      as "less" under either direction. */
  function Compare(a: JsString, b: JsString, asc: bool): (c: int)
    ensures c == 1 || c == -1
  {
    if Less(b, a) then DirModifier(asc) else -DirModifier(asc)
  }

  /** The comparator the source evidently means: the same answers, except
      that equal keys compare equal. */
  function ConsistentCompare(a: JsString, b: JsString, asc: bool): (c: int)
    ensures a == b <==> c == 0
  {
    if a == b then 0 else Compare(a, b, asc)
  }

  /** The as-written comparator is not a consistent comparison function in
      the sense of Array.prototype.sort in ECMA-262: a key never compares
      equal to itself, and two equal keys each compare below the other
      (ascending) or above the other (descending). */
  lemma CompareTieBias(k: JsString, asc: bool)
    ensures Compare(k, k, asc) != 0
    ensures Compare(k, k, asc) == -DirModifier(asc)
  {
    LessIrreflexive(k);
  }

  /** On different keys the two comparators agree, and both sort by `Before`. */
  lemma {:induction false} CompareOrdersByDirection(a: JsString, b: JsString, asc: bool)
    requires a != b
    ensures Compare(a, b, asc) == ConsistentCompare(a, b, asc)
    ensures Compare(a, b, asc) < 0 <==> Before(a, b, asc)
  {
    LessTotal(a, b);
    LessAsymmetric(a, b);
  }

  /** Although it is not consistent, no answer of the as-written comparator
      contradicts the order: at most 0 only when `a` may come first, above 0
      only when `b` may. */
  lemma {:induction false} CompareSortsByDirection(a: JsString, b: JsString, asc: bool)
    ensures Compare(a, b, asc) <= 0 ==> Before(a, b, asc)
    ensures Compare(a, b, asc) > 0 ==> Before(b, a, asc)
  {
    LessAsymmetric(a, b);
  }

  /** The corrected comparator meets every requirement on a consistent
      comparison function: reflexive, antisymmetric in sign, transitive. */
  lemma {:induction false} ConsistentCompareIsConsistent(a: JsString, b: JsString, c: JsString, asc: bool)
    ensures ConsistentCompare(a, a, asc) == 0
    ensures ConsistentCompare(a, b, asc) == -ConsistentCompare(b, a, asc)
    ensures ConsistentCompare(a, b, asc) < 0 && ConsistentCompare(b, c, asc) < 0 ==> ConsistentCompare(a, c, asc) < 0
    ensures ConsistentCompare(a, b, asc) > 0 && ConsistentCompare(b, c, asc) > 0 ==> ConsistentCompare(a, c, asc) > 0
  {
    LessTotal(a, b);
    LessAsymmetric(a, b);
    LessTotal(b, c);
    LessAsymmetric(b, c);
    LessTotal(a, c);
    LessAsymmetric(a, c);
    if Less(a, b) && Less(b, c) { LessTransitive(a, b, c); }
    if Less(c, b) && Less(b, a) { LessTransitive(c, b, a); }
  }

  /** The corrected comparator puts `a` no later than `b` exactly when
      `Before(a, b, asc)`. */
  lemma {:induction false} ConsistentCompareMatchesBefore(a: JsString, b: JsString, asc: bool)
    ensures ConsistentCompare(a, b, asc) <= 0 <==> Before(a, b, asc)
  {
    LessIrreflexive(a);
    if a != b { CompareOrdersByDirection(a, b, asc); }
  }

  lemma {:induction false} BeforeTotal(a: JsString, b: JsString, asc: bool)
    ensures Before(a, b, asc) || Before(b, a, asc)
  {
    LessAsymmetric(a, b);
  }

  lemma {:induction false} BeforeTransitive(a: JsString, b: JsString, c: JsString, asc: bool)
    requires Before(a, b, asc) && Before(b, c, asc)
    ensures Before(a, c, asc)
  {
    LessTotal(a, b);
    LessTotal(b, c);
    if asc {
      if Less(c, a) {
        if a == b { } else if b == c { } else { LessTransitive(c, a, b); }
      }
    } else {
      if Less(a, c) {
        if a == b { } else if b == c { } else { LessTransitive(b, a, c); }
      }
    }
  }

  lemma {:induction false} BeforeAntisymmetric(a: JsString, b: JsString, asc: bool)
    requires Before(a, b, asc) && Before(b, a, asc)
    ensures a == b
  {
    LessTotal(a, b);
  }

  /** Every key is no later than every later key. */
  ghost predicate SortedBy(ks: seq<JsString>, asc: bool) {
    forall i, j :: 0 <= i < j < |ks| ==> Before(ks[i], ks[j], asc)
  }

  /** Sorted key sequences are determined by their contents: the only
      sorted arrangement of a multiset of keys is unique. */
  lemma {:induction false} SortedUnique(s: seq<JsString>, t: seq<JsString>, asc: bool)
    requires SortedBy(s, asc) && SortedBy(t, asc)
    requires multiset(s) == multiset(t)
    ensures s == t
    decreases |s|
  {
    if |s| == 0 {
      assert |t| == |multiset(t)| == 0;
    } else {
      assert |t| == |multiset(t)| == |s|;
      assert s[0] in multiset(t) && t[0] in multiset(s);
      var i :| 0 <= i < |t| && t[i] == s[0];
      var j :| 0 <= j < |s| && s[j] == t[0];
      if s[0] != t[0] {
        assert Before(s[0], s[j], asc) && Before(t[0], t[i], asc);
        BeforeAntisymmetric(s[0], t[0], asc);
      }
      assert s == [s[0]] + s[1..] && t == [t[0]] + t[1..];
      assert multiset(s) == multiset{s[0]} + multiset(s[1..]);
      assert s[0] == t[0];
      assert multiset(t) == multiset{t[0]} + multiset(t[1..]);
      assert multiset(s[1..]) == multiset(s) - multiset{s[0]};
      assert multiset(t[1..]) == multiset(t) - multiset{t[0]};
      SortedTail(s, asc);
      SortedTail(t, asc);
      SortedUnique(s[1..], t[1..], asc);
    }
  }

  lemma SortedTail(s: seq<JsString>, asc: bool)
    requires |s| > 0 && SortedBy(s, asc)
    ensures SortedBy(s[1..], asc)
  {
    forall i, j | 0 <= i < j < |s| - 1
      ensures Before(s[1..][i], s[1..][j], asc)
    {
      assert Before(s[i + 1], s[j + 1], asc);
    }
  }

  function Reverse<T>(s: seq<T>): (r: seq<T>)
    ensures |r| == |s|
    ensures forall i :: 0 <= i < |s| ==> r[i] == s[|s| - 1 - i]
    ensures multiset(r) == multiset(s)
  {
    if |s| == 0 then []
    else
      assert s == [s[0]] + s[1..];
      Reverse(s[1..]) + [s[0]]
  }

  /** Read backwards, an ascending key sequence is descending and the other
      way round. */
  lemma ReverseSorted(ks: seq<JsString>, asc: bool)
    requires SortedBy(ks, asc)
    ensures SortedBy(Reverse(ks), !asc)
  {
    var r := Reverse(ks);
    forall i, j | 0 <= i < j < |r|
      ensures Before(r[i], r[j], !asc)
    {
      assert Before(ks[|ks| - 1 - j], ks[|ks| - 1 - i], asc);
    }
  }
}

=== FILE: row_sort.dfy ===
/** A concrete sort of the body rows, standing in for the engine's
    Array.prototype.sort: insertion sort driven by the corrected
    comparator. It is one of the results `IsSortOf` allows; nothing else
    in the model depends on how it breaks ties. */
module RowSort {
  import opened JsStrings
  import opened KeyOrder
  import opened Rows

  /** Putting a row in front of sorted rows keeps them sorted when its key
      may precede every one of theirs. */
  lemma SortedCons(x: Row, s: seq<Row>, column: nat, asc: bool)
    requires column < |x| && AllHaveCell(s, column) && SortedBy(Keys(s, column), asc)
    requires forall i :: 0 <= i < |s| ==> Before(Key(x, column), Key(s[i], column), asc)
    ensures AllHaveCell([x] + s, column)
    ensures SortedBy(Keys([x] + s, column), asc)
  {
    var r := [x] + s;
    assert AllHaveCell(r, column);
    KeysTail(r, column);
    assert r[1..] == s;
    var ks := Keys(r, column);
    forall i, j | 0 <= i < j < |ks|
      ensures Before(ks[i], ks[j], asc)
    {
      if i > 0 { assert Before(Keys(s, column)[i - 1], Keys(s, column)[j - 1], asc); }
    }
  }

  /** Inserting in front: the new key precedes the first, hence every, key. */
  lemma InsertFrontSorted(x: Row, s: seq<Row>, column: nat, asc: bool)
    requires column < |x| && AllHaveCell(s, column) && SortedBy(Keys(s, column), asc)
    requires |s| > 0 && ConsistentCompare(Key(x, column), Key(s[0], column), asc) <= 0
    ensures AllHaveCell([x] + s, column)
    ensures SortedBy(Keys([x] + s, column), asc)
  {
    var kx, ks := Key(x, column), Keys(s, column);
    ConsistentCompareMatchesBefore(kx, ks[0], asc);
    forall i | 0 <= i < |s|
      ensures Before(kx, Key(s[i], column), asc)
    {
      if i > 0 {
        assert Before(ks[0], ks[i], asc);
        BeforeTransitive(kx, ks[0], ks[i], asc);
      }
    }
    SortedCons(x, s, column, asc);
  }

  /** In sorted rows the first key precedes the key of every row. */
  lemma FirstKeyPrecedes(s: seq<Row>, m: nat, column: nat, asc: bool)
    requires AllHaveCell(s, column) && SortedBy(Keys(s, column), asc)
    requires m < |s|
    ensures Before(Key(s[0], column), Key(s[m], column), asc)
  {
    var ks := Keys(s, column);
    if m == 0 {
      LessIrreflexive(ks[0]);
    } else {
      assert Before(ks[0], ks[m], asc);
    }
  }

  /** Inserting further on: the first key precedes the inserted key and
      every key that follows it. */
  lemma FirstPrecedesRest(x: Row, s: seq<Row>, rest: seq<Row>, column: nat, asc: bool)
    requires column < |x| && AllHaveCell(s, column) && SortedBy(Keys(s, column), asc)
    requires |s| > 0 && ConsistentCompare(Key(x, column), Key(s[0], column), asc) > 0
    requires multiset(rest) == multiset(s[1..]) + multiset{x}
    requires AllHaveCell(rest, column)
    ensures forall i :: 0 <= i < |rest| ==> Before(Key(s[0], column), Key(rest[i], column), asc)
  {
    var k0 := Key(s[0], column);
    ConsistentCompareMatchesBefore(Key(x, column), k0, asc);
    BeforeTotal(Key(x, column), k0, asc);
    forall i | 0 <= i < |rest|
      ensures Before(k0, Key(rest[i], column), asc)
    {
      assert rest[i] in multiset(rest);
      if rest[i] != x {
        assert rest[i] in s[1..];
        var m :| 0 <= m < |s[1..]| && s[1..][m] == rest[i];
        FirstKeyPrecedes(s, m + 1, column, asc);
      }
    }
  }

  lemma InsertLaterSorted(x: Row, s: seq<Row>, rest: seq<Row>, column: nat, asc: bool)
    requires column < |x| && AllHaveCell(s, column) && SortedBy(Keys(s, column), asc)
    requires |s| > 0 && ConsistentCompare(Key(x, column), Key(s[0], column), asc) > 0
    requires multiset(rest) == multiset(s[1..]) + multiset{x}
    requires AllHaveCell(rest, column) && SortedBy(Keys(rest, column), asc)
    ensures AllHaveCell([s[0]] + rest, column)
    ensures SortedBy(Keys([s[0]] + rest, column), asc)
  {
    FirstPrecedesRest(x, s, rest, column, asc);
    SortedCons(s[0], rest, column, asc);
  }

  /** Putting the head of `s` back in front of `rest`, which holds the
      tail of `s` and `x`, gives the rows of `s` and `x`. */
  lemma MultisetConsTail<T>(s: seq<T>, rest: seq<T>, x: T)
    requires |s| > 0 && multiset(rest) == multiset(s[1..]) + multiset{x}
    ensures multiset([s[0]] + rest) == multiset(s) + multiset{x}
  {
    assert s == [s[0]] + s[1..];
  }

  lemma SortedRowsTail(s: seq<Row>, column: nat, asc: bool)
    requires |s| > 0 && AllHaveCell(s, column) && SortedBy(Keys(s, column), asc)
    ensures AllHaveCell(s[1..], column) && SortedBy(Keys(s[1..], column), asc)
  {
    KeysTail(s, column);
    SortedTail(Keys(s, column), asc);
  }

  /** Inserts row `x` into rows already sorted by key. */
  function Insert(x: Row, s: seq<Row>, column: nat, asc: bool): (r: seq<Row>)
    requires column < |x| && AllHaveCell(s, column) && SortedBy(Keys(s, column), asc)
    ensures multiset(r) == multiset(s) + multiset{x}
    ensures AllHaveCell(r, column)
    ensures SortedBy(Keys(r, column), asc)
    decreases |s|
  {
    if |s| == 0 then
      [x]
    else if ConsistentCompare(Key(x, column), Key(s[0], column), asc) <= 0 then
      InsertFrontSorted(x, s, column, asc);
      [x] + s
    else
      SortedRowsTail(s, column, asc);
      var rest := Insert(x, s[1..], column, asc);
      InsertLaterSorted(x, s, rest, column, asc);
      MultisetConsTail(s, rest, x);
      [s[0]] + rest
  }

  /** Sorts the body rows by the key at `column`, in the given direction. */
  function SortRows(rows: seq<Row>, column: nat, asc: bool): (r: seq<Row>)
    requires AllHaveCell(rows, column)
    ensures IsSortOf(r, rows, column, asc)
    decreases |rows|
  {
    if |rows| == 0 then
      []
    else
      KeysTail(rows, column);
      var r := Insert(rows[0], SortRows(rows[1..], column, asc), column, asc);
      MultisetTail(rows);
      assert rows[0] in multiset(rows);
      r
  }
}

=== FILE: rows.dfy ===
/** Body rows, the key each row is sorted by, and what a sort of the rows
    must produce. */
module Rows {
  import opened Wrappers
  import opened JsStrings
  import opened KeyOrder

  /** A body row: the `textContent` of each of its cells, in order. */
  type Row = seq<JsString>

  /** The CSS selector `:nth-child(n)`: the child at one-based position `n`,
      if there is one. */
  function NthChild<T>(children: seq<T>, n: nat): Option<T> {
    if 1 <= n <= |children| then Some(children[n - 1]) else None
  }

  /** The comparator's key lookup: the cell found as
      `td:nth-child(column + 1)`, trimmed; `None` where the lookup yields
      nothing and reading its `textContent` throws. The rest of the model
      works with `Key` and `AllHaveCell`; this contract is what ties them to
      the selector lookup. */
  function CellKey(row: Row, column: nat): (r: Option<JsString>)
    ensures r.Some? <==> column < |row|
    ensures r.Some? ==> r.value == Key(row, column)
  {
    match NthChild(row, column + 1)
    case None => None
    case Some(text) => Some(Trim(text))
  }

  /** Every row has a cell at `column`, so the comparator's lookup succeeds. */
  predicate AllHaveCell(rows: seq<Row>, column: nat) {
    forall i :: 0 <= i < |rows| ==> column < |rows[i]|
  }

  /** The key of a row: the trimmed text of its cell at zero-based `column`. */
  function Key(row: Row, column: nat): JsString
    requires column < |row|
  {
    Trim(row[column])
  }

  function Keys(rows: seq<Row>, column: nat): (ks: seq<JsString>)
    requires AllHaveCell(rows, column)
    ensures |ks| == |rows|
    ensures forall i :: 0 <= i < |rows| ==> ks[i] == Key(rows[i], column)
  {
    if |rows| == 0 then [] else [Key(rows[0], column)] + Keys(rows[1..], column)
  }

  /** `sorted` is a possible result of sorting `rows`: the same rows, each
      as often as before, with keys in order. Which of several rows with
      equal keys comes first is left open. */
  ghost predicate IsSortOf(sorted: seq<Row>, rows: seq<Row>, column: nat, asc: bool) {
    && multiset(sorted) == multiset(rows)
    && AllHaveCell(sorted, column)
    && SortedBy(Keys(sorted, column), asc)
  }

  /** Removing the element at `i` removes one occurrence of it. */
  lemma MultisetRemoveAt<T>(s: seq<T>, i: nat)
    requires i < |s|
    ensures multiset(s[..i] + s[i + 1..]) == multiset(s) - multiset{s[i]}
  {
    assert s == s[..i] + [s[i]] + s[i + 1..];
  }

  /** Removing a row removes its key. */
  lemma KeysRemoveAt(rows: seq<Row>, i: nat, column: nat)
    requires i < |rows| && AllHaveCell(rows, column)
    ensures AllHaveCell(rows[..i] + rows[i + 1..], column)
    ensures Keys(rows[..i] + rows[i + 1..], column) == Keys(rows, column)[..i] + Keys(rows, column)[i + 1..]
  {
    var rest := rows[..i] + rows[i + 1..];
    assert forall k :: 0 <= k < |rest| ==> rest[k] == if k < i then rows[k] else rows[k + 1];
    var ks, kr := Keys(rows, column), Keys(rest, column);
    forall k | 0 <= k < |rest|
      ensures kr[k] == (ks[..i] + ks[i + 1..])[k]
    {
      if k < i { assert rest[k] == rows[k]; } else { assert rest[k] == rows[k + 1]; }
    }
  }

  lemma MultisetTail<T>(s: seq<T>)
    requires |s| > 0
    ensures multiset(s[1..]) == multiset(s) - multiset{s[0]}
  {
    assert s == [s[0]] + s[1..];
  }

  lemma KeysTail(rows: seq<Row>, column: nat)
    requires |rows| > 0 && AllHaveCell(rows, column)
    ensures AllHaveCell(rows[1..], column)
    ensures Keys(rows, column) == [Key(rows[0], column)] + Keys(rows[1..], column)
  {
  }

  /** Putting a row back where it was removed puts its key back. */
  lemma KeysRestore(a: seq<Row>, b: seq<Row>, i: nat, column: nat)
    requires |a| > 0 && i < |b| && a[0] == b[i]
    requires AllHaveCell(a, column) && AllHaveCell(b, column)
    requires multiset(Keys(a[1..], column)) == multiset(Keys(b[..i] + b[i + 1..], column))
    ensures multiset(Keys(a, column)) == multiset(Keys(b, column))
  {
    KeysRemoveAt(b, i, column);
    KeysTail(a, column);
    var kb := Keys(b, column);
    var k := kb[i];
    MultisetRemoveAt(kb, i);
    assert k in multiset(kb);
    assert multiset(Keys(a, column)) == multiset{k} + multiset(Keys(a[1..], column));
  }

  /** Reordering rows reorders their keys. */
  lemma {:induction false} KeysOfPermutation(a: seq<Row>, b: seq<Row>, column: nat)
    requires multiset(a) == multiset(b) && AllHaveCell(a, column)
    ensures AllHaveCell(b, column)
    ensures multiset(Keys(a, column)) == multiset(Keys(b, column))
    decreases |a|
  {
    forall k | 0 <= k < |b|
      ensures column < |b[k]|
    {
      assert b[k] in multiset(a);
    }
    if |a| > 0 {
      assert a[0] in multiset(b);
      var i :| 0 <= i < |b| && b[i] == a[0];
      MultisetRemoveAt(b, i);
      MultisetTail(a);
      var b' := b[..i] + b[i + 1..];
      KeysOfPermutation(a[1..], b', column);
      KeysRestore(a, b, i, column);
    }
  }

  /** Any two sorts of the same rows have the same key sequence: only the
      order among rows with equal keys can differ. */
  lemma SortKeysUnique(s1: seq<Row>, s2: seq<Row>, rows: seq<Row>, column: nat, asc: bool)
    requires IsSortOf(s1, rows, column, asc) && IsSortOf(s2, rows, column, asc)
    ensures Keys(s1, column) == Keys(s2, column)
  {
    KeysOfPermutation(s1, s2, column);
    SortedUnique(Keys(s1, column), Keys(s2, column), asc);
  }

  /** The keys of a sort are the one sorted arrangement of the original keys. */
  lemma SortKeysAreSortedArrangement(sorted: seq<Row>, rows: seq<Row>, column: nat, asc: bool, ks: seq<JsString>)
    requires IsSortOf(sorted, rows, column, asc)
    requires AllHaveCell(rows, column)
    ensures SortedBy(ks, asc) && multiset(ks) == multiset(Keys(rows, column)) <==> ks == Keys(sorted, column)
  {
    KeysOfPermutation(sorted, rows, column);
    if SortedBy(ks, asc) && multiset(ks) == multiset(Keys(rows, column)) {
      SortedUnique(ks, Keys(sorted, column), asc);
    }
  }

  /** Sorting again in the same direction leaves the key sequence alone. */
  lemma SortKeysIdempotent(once: seq<Row>, twice: seq<Row>, rows: seq<Row>, column: nat, asc: bool)
    requires IsSortOf(once, rows, column, asc) && IsSortOf(twice, once, column, asc)
    ensures Keys(twice, column) == Keys(once, column)
  {
    KeysOfPermutation(once, twice, column);
    SortedUnique(Keys(twice, column), Keys(once, column), asc);
  }

  /** An ascending and a descending sort of the same rows have key
      sequences that are each other's reverse. */
  lemma SortKeysReversed(up: seq<Row>, down: seq<Row>, rows: seq<Row>, column: nat)
    requires IsSortOf(up, rows, column, true) && IsSortOf(down, rows, column, false)
    ensures Keys(down, column) == Reverse(Keys(up, column))
  {
    KeysOfPermutation(up, down, column);
    ReverseSorted(Keys(up, column), true);
    SortedUnique(Keys(down, column), Reverse(Keys(up, column)), false);
  }
}

=== FILE: scenarios.dfy ===
/** Concrete tables run through the model: a three-row table sorted each
    way, a run of header clicks, and the two ways a sort can throw. */
module Scenarios {
  import opened JsStrings
  import opened KeyOrder
  import opened Rows
  import opened TableSort

  const Alice: JsString := [0x41, 0x6C, 0x69, 0x63, 0x65]
  const Bob: JsString := [0x42, 0x6F, 0x62]
  const Charlie: JsString := [0x43, 0x68, 0x61, 0x72, 0x6C, 0x69, 0x65]
  const One: JsString := [0x31]
  const Two: JsString := [0x32]
  const Three: JsString := [0x33]

  /** Two unmarked header cells over rows whose column 1 holds
      "Charlie", "Alice", "Bob". */
  function People(): Table {
    Table([HeaderCell(10, false, false), HeaderCell(11, false, false)],
          [[Three, Charlie], [One, Alice], [Two, Bob]])
  }

  lemma PeopleKeys(t: Table)
    requires t == People()
    ensures AllHaveCell(t.body, 1)
    ensures Keys(t.body, 1) == [Charlie, Alice, Bob]
  {
    TrimOfTrimmed(Charlie);
    TrimOfTrimmed(Alice);
    TrimOfTrimmed(Bob);
  }

  lemma NamesInOrder()
    ensures Less(Alice, Bob) && Less(Bob, Charlie)
    ensures SortedBy([Alice, Bob, Charlie], true)
    ensures SortedBy([Charlie, Bob, Alice], false)
  {
    assert Alice[0] < Bob[0] < Charlie[0];
    LessAsymmetric(Alice, Bob);
    LessAsymmetric(Bob, Charlie);
    LessTransitive(Alice, Bob, Charlie);
    LessAsymmetric(Alice, Charlie);
  }

  lemma NameMultisets()
    ensures multiset([Alice, Bob, Charlie]) == multiset([Charlie, Alice, Bob])
    ensures multiset([Charlie, Bob, Alice]) == multiset([Charlie, Alice, Bob])
  {
  }

  /** Whatever order the engine leaves rows with equal keys in, every
      sort of these rows has the names in order. */
  lemma SortedPeople(t: Table, sorted: seq<Row>, asc: bool)
    requires t == People()
    requires IsSortOf(sorted, t.body, 1, asc)
    ensures asc ==> Keys(sorted, 1) == [Alice, Bob, Charlie]
    ensures !asc ==> Keys(sorted, 1) == [Charlie, Bob, Alice]
  {
    PeopleKeys(t);
    NamesInOrder();
    NameMultisets();
    if asc {
      SortKeysAreSortedArrangement(sorted, t.body, 1, true, [Alice, Bob, Charlie]);
    } else {
      SortKeysAreSortedArrangement(sorted, t.body, 1, false, [Charlie, Bob, Alice]);
    }
  }

  /** Sorting on column 1 marks header 1, and only header 1, with the
      direction. */
  lemma SortPeopleMarksHeader(t: Table, asc: bool)
    requires t == People()
    ensures SortTableByColumn(t, 1, asc).Normal?
    ensures SortTableByColumn(t, 1, asc).table.headers == [HeaderCell(10, false, false), HeaderCell(11, asc, !asc)]
  {
  }

  /** Sorting ascending on column 1 orders the names and marks header 1
      ascending. */
  lemma SortPeopleAscending(t: Table)
    requires t == People()
    ensures SortTableByColumn(t, 1).Normal?
    ensures Keys(SortTableByColumn(t, 1).table.body, 1) == [Alice, Bob, Charlie]
    ensures SortTableByColumn(t, 1).table.headers == [HeaderCell(10, false, false), HeaderCell(11, true, false)]
  {
    SortPeopleMarksHeader(t, true);
    SortedPeople(t, SortTableByColumn(t, 1).table.body, true);
  }

  /** Sorting descending on column 1 reverses the names and marks header 1
      descending. */
  lemma SortPeopleDescending(t: Table)
    requires t == People()
    ensures SortTableByColumn(t, 1, false).Normal?
    ensures Keys(SortTableByColumn(t, 1, false).table.body, 1) == [Charlie, Bob, Alice]
    ensures SortTableByColumn(t, 1, false).table.headers == [HeaderCell(10, false, false), HeaderCell(11, false, true)]
  {
    SortPeopleMarksHeader(t, false);
    SortedPeople(t, SortTableByColumn(t, 1, false).table.body, false);
  }

  /** Clicking header 11 sorts ascending, clicking it again descending,
      and clicking header 10 then clears header 11. */
  lemma ClickSequence(t: Table)
    requires t == People()
    ensures HasHeader(t.headers, 11)
    ensures var first := Click(t, 11);
      && first.Normal? && IndicatorOf(first.table.headers[1]) == Ascending
      && HasHeader(first.table.headers, 11)
      && var second := Click(first.table, 11);
      && second.Normal? && IndicatorOf(second.table.headers[1]) == Descending
      && HasHeader(second.table.headers, 10)
      && var third := Click(second.table, 10);
      && third.Normal?
      && IndicatorOf(third.table.headers[0]) == Ascending
      && IndicatorOf(third.table.headers[1]) == Unmarked
  {
    PeopleKeys(t);
    assert t.headers[1].id == 11;
    assert IndexOf(t.headers, 11) == 1;
    var first := Click(t, 11);
    assert first.table.headers[1].id == 11;
    assert IndexOf(first.table.headers, 11) == 1;
    var second := Click(first.table, 11);
    assert second.table.headers[0].id == 10;
    assert IndexOf(second.table.headers, 10) == 0;
  }

  /** A column past the end of the rows: the comparator throws before the
      body is touched, so neither the rows nor the headers change. */
  lemma SortPastLastColumn(t: Table)
    requires t == People()
    ensures SortTableByColumn(t, 5) == Thrown(t, MissingCell)
  {
    assert |t.body[0]| == 2;
  }

  /** A column past the last header but within a single row: the
      comparator never runs, the indicators are cleared, and the lookup of
      the header cell throws. */
  lemma SortPastLastHeader()
    ensures var t := Table([HeaderCell(10, true, false)], [[One, Alice]]);
      SortTableByColumn(t, 1) == Thrown(Table([HeaderCell(10, false, false)], t.body), MissingHeader)
  {
  }

  /** Keys compare by UTF-16 code unit: U+1F600, written as the surrogate
      pair D83D DE00, sorts before U+FF61 although its code point is larger. */
  lemma CodeUnitOrder()
    ensures Less([0xD83D, 0xDE00], [0xFF61])
    ensures Trim([0x20, 0x3000, 0x42, 0x6F, 0x62, 0x0A]) == Bob
  {
    TrimIgnoresPadding([0x20, 0x3000], Bob, [0x0A]);
    TrimOfTrimmed(Bob);
    assert [0x20, 0x3000] + Bob + [0x0A] == [0x20, 0x3000, 0x42, 0x6F, 0x62, 0x0A];
  }
}

=== FILE: table_sort.dfy ===
/** `sortTableByColumn` and the header click handler, with the DOM reduced
    to values: the table is its header cells and its body rows, and a call
    ends either normally or by throwing, with whatever it changed before
    the throw still in place. */
module TableSort {
  import opened Wrappers
  import opened Rows
  import opened RowSort

  /** A header cell: its identity as an element, and whether its class
      list holds `th-sort-asc` and `th-sort-desc`. */
  datatype HeaderCell = HeaderCell(id: nat, sortAsc: bool, sortDesc: bool)

  /** The header cells of the header row, in order, and the rows of the
      first body section. */
  datatype Table = Table(headers: seq<HeaderCell>, body: seq<Row>)

  /** Why a call throws a TypeError: the comparator read the text of a
      missing body cell, or the indicator update found no header cell. */
  datatype Failure = MissingCell | MissingHeader

  /** How a call ends, with the table as it then is. */
  datatype Completion = Normal(table: Table) | Thrown(table: Table, failure: Failure)

  /** `classList.remove("th-sort-asc", "th-sort-desc")` on every header. */
  function ClearIndicators(headers: seq<HeaderCell>): seq<HeaderCell> {
    seq(|headers|, i requires 0 <= i < |headers| => headers[i].(sortAsc := false, sortDesc := false))
  }

  /** `toggle("th-sort-asc", asc)` then `toggle("th-sort-desc", !asc)`:
      a forced toggle sets the class exactly when its flag is true. */
  function ShowDirection(h: HeaderCell, asc: bool): HeaderCell {
    h.(sortAsc := asc, sortDesc := !asc)
  }

  /** The engine's sort calls the comparator on every row once there are
      two or more, so one row without a cell at `column` makes it throw. */
  predicate LookupFails(body: seq<Row>, column: nat) {
    2 <= |body| && !AllHaveCell(body, column)
  }

  /** `after` is what the sort leaves in the body: the same rows; with
      fewer than two the comparator never runs and nothing moves; when
      every row has the cell, sorted by its key. */
  ghost predicate BodyReordered(before: seq<Row>, after: seq<Row>, column: nat, asc: bool) {
    && multiset(after) == multiset(before)
    && (|before| < 2 ==> after == before)
    && (AllHaveCell(before, column) ==> IsSortOf(after, before, column, asc))
  }

  /** The same header elements, in the same places. */
  predicate SameHeaderCells(before: seq<HeaderCell>, after: seq<HeaderCell>) {
    |after| == |before| && forall i :: 0 <= i < |before| ==> after[i].id == before[i].id
  }

  predicate Marked(h: HeaderCell) {
    h.sortAsc || h.sortDesc
  }

  predicate NoIndicators(headers: seq<HeaderCell>) {
    forall i :: 0 <= i < |headers| ==> !Marked(headers[i])
  }

  /** Header `column` alone carries an indicator, and exactly the one
      for `asc`. */
  predicate ShowsSortedColumn(headers: seq<HeaderCell>, column: nat, asc: bool) {
    && column < |headers|
    && (forall i :: 0 <= i < |headers| ==> (Marked(headers[i]) <==> i == column))
    && headers[column].sortAsc == asc
    && headers[column].sortDesc == !asc
  }

  /** `sortTableByColumn(table, column, asc = true)`. */
  function SortTableByColumn(t: Table, column: nat, asc: bool := true): (r: Completion)
    ensures SameHeaderCells(t.headers, r.table.headers)
    ensures multiset(r.table.body) == multiset(t.body)
    ensures r.Thrown? && r.failure == MissingCell <==> LookupFails(t.body, column)
    ensures r.Thrown? && r.failure == MissingCell ==> r.table == t
    ensures r.Thrown? && r.failure == MissingHeader <==> !LookupFails(t.body, column) && |t.headers| <= column
    ensures !LookupFails(t.body, column) ==> BodyReordered(t.body, r.table.body, column, asc)
    ensures r.Thrown? && r.failure == MissingHeader ==> NoIndicators(r.table.headers)
    ensures r.Normal? ==> ShowsSortedColumn(r.table.headers, column, asc)
  {
    if LookupFails(t.body, column) then
      Thrown(t, MissingCell)
    else
      var body := if |t.body| < 2 then t.body else SortRows(t.body, column, asc);
      var headers := ClearIndicators(t.headers);
      match NthChild(headers, column + 1)
      case None => Thrown(Table(headers, body), MissingHeader)
      case Some(h) => Normal(Table(headers[column := ShowDirection(h, asc)], body))
  }

  predicate HasHeader(headers: seq<HeaderCell>, id: nat) {
    exists i :: 0 <= i < |headers| && headers[i].id == id
  }

  /** `Array.prototype.indexOf` over the header row's children: the first
      position of the element, or -1. */
  function IndexOf(headers: seq<HeaderCell>, id: nat): (i: int)
    ensures -1 <= i < |headers|
    ensures i == -1 <==> !HasHeader(headers, id)
    ensures 0 <= i ==> headers[i].id == id && forall k :: 0 <= k < i ==> headers[k].id != id
  {
    if |headers| == 0 then -1
    else if headers[0].id == id then 0
    else
      var i := IndexOf(headers[1..], id);
      if i == -1 then -1 else i + 1
  }

  /** The indicator a header shows, read the way the click handler reads
      it: `th-sort-asc` first. */
  datatype Indicator = Unmarked | Ascending | Descending

  function IndicatorOf(h: HeaderCell): Indicator {
    if h.sortAsc then Ascending else if h.sortDesc then Descending else Unmarked
  }

  /** The state machine a header's indicator is meant to follow on a
      click: unmarked sorts ascending first, and each further click
      flips the direction. */
  function NextIndicator(i: Indicator): Indicator {
    match i
    case Unmarked => Ascending
    case Ascending => Descending
    case Descending => Ascending
  }

  /** The click handler of header `id`: sort by the header's position, in
      the direction opposite to "currently ascending". */
  function Click(t: Table, id: nat): (r: Completion)
    requires HasHeader(t.headers, id)
    ensures SameHeaderCells(t.headers, r.table.headers)
    ensures multiset(r.table.body) == multiset(t.body)
    ensures var c := IndexOf(t.headers, id);
      && 0 <= c < |t.headers|
      && (r.Thrown? <==> LookupFails(t.body, c))
      && (r.Thrown? ==> r.table == t)
      && (r.Normal? ==> IndicatorOf(r.table.headers[c]) == NextIndicator(IndicatorOf(t.headers[c])))
      && (r.Normal? ==> forall i :: 0 <= i < |t.headers| && i != c ==> IndicatorOf(r.table.headers[i]) == Unmarked)
      && (r.Normal? ==> ShowsSortedColumn(r.table.headers, c, !t.headers[c].sortAsc))
      && (!r.Thrown? ==> BodyReordered(t.body, r.table.body, c, NextIndicator(IndicatorOf(t.headers[c])) == Ascending))
  {
    var column := IndexOf(t.headers, id);
    var currentIsAscending := t.headers[column].sortAsc;
    SortTableByColumn(t, column, !currentIsAscending)
  }

  /** At most one header carries an indicator, and never both at once. */
  predicate IndicatorsExclusive(headers: seq<HeaderCell>) {
    && (forall i :: 0 <= i < |headers| ==> !(headers[i].sortAsc && headers[i].sortDesc))
    && (forall i, j :: 0 <= i < j < |headers| ==> !(Marked(headers[i]) && Marked(headers[j])))
  }

  /** Whatever the headers showed before, a sort that gets past the body
      leaves them exclusive; one that does not leaves them as they were. */
  lemma SortKeepsIndicatorsExclusive(t: Table, column: nat, asc: bool)
    ensures !LookupFails(t.body, column) ==> IndicatorsExclusive(SortTableByColumn(t, column, asc).table.headers)
    ensures IndicatorsExclusive(t.headers) ==> IndicatorsExclusive(SortTableByColumn(t, column, asc).table.headers)
  {
  }

  lemma SameHeaderCellsKeepsHeaders(before: seq<HeaderCell>, after: seq<HeaderCell>, id: nat)
    requires SameHeaderCells(before, after) && HasHeader(before, id)
    ensures HasHeader(after, id)
  {
    var i :| 0 <= i < |before| && before[i].id == id;
    assert after[i].id == id;
  }

  /** A run of clicks, one handler after another; a handler that throws
      leaves its changes behind and the next click still runs. */
  function RunClicks(t: Table, ids: seq<nat>): (r: Table)
    requires forall k :: 0 <= k < |ids| ==> HasHeader(t.headers, ids[k])
    ensures SameHeaderCells(t.headers, r.headers)
    ensures multiset(r.body) == multiset(t.body)
    ensures IndicatorsExclusive(t.headers) ==> IndicatorsExclusive(r.headers)
    decreases |ids|
  {
    if |ids| == 0 then t
    else
      var next := Click(t, ids[0]).table;
      SortKeepsIndicatorsExclusive(t, IndexOf(t.headers, ids[0]), !t.headers[IndexOf(t.headers, ids[0])].sortAsc);
      forall k | 0 <= k < |ids| - 1
        ensures HasHeader(next.headers, ids[1..][k])
      {
        SameHeaderCellsKeepsHeaders(t.headers, next.headers, ids[k + 1]);
      }
      RunClicks(next, ids[1..])
  }
}

=== FILE: wrappers.dfy ===
/** The optional value a lookup may or may not find. */
module Wrappers {
  datatype Option<T> = None | Some(value: T)
}
